=== FILE: README.md ===
# Session login of a small Express gateway, in Dafny

This project models the credential and session-identity layer of `server.js`, an
Express server that authenticates users through Passport's local strategy and keeps
sessions in express-session. The model has four parts:

- **Accounts** (`accounts.dfy`): the in-memory user list, and the `LocalStrategy`
  verify callback. The callback scans the list and compares email and password by
  plain string equality. It returns the *first* matching user. When nothing matches,
  it never calls back, which the model writes as `None`.
- **Identity** (`identity.dfy`): `serializeUser` keeps only the user's id.
  `deserializeUser` scans the list for that id. It keeps the *last* match, or
  yields `false` (`None`) when no entry has the id.
- **Gate** (`gate.dfy`): the session store is a map from session token to subject id.
  A token that is not in the map is an anonymous session. A session is authenticated
  exactly when its token maps to a non-empty id that the deserializer resolves to a user.
  - `GET /auth` replies `Authenticated as <id>` or `Use POST to log-in`, as a bare string body.
  - `POST /auth` binds the token to the verified user's id and replies `Logged in\n`.
    When both fields are non-empty and no entry matches, the verify callback never
    calls back: no reply is sent and nothing changes.
  - `Step` and `Run` serve a sequence of such requests.
- **Options** (`options.dfy`): the optional-value datatype.

Facts about server.js that the model keeps:
- The user list is a constant array of one account (lines 10-12). It is an immutable
  `seq<User>` passed to every function, so neither verification nor deserialization
  can change it.
- Email and password are compared with `===` on the stored strings (line 18). No
  hashing is involved.
- A login with both fields non-empty that matches no entry gets no reply at all (lines 17-22).
- `GET /auth` answers with a bare string body (lines 64 and 66).

server.js does not fix the library versions. The model assumes Passport before 0.6 with
passport-local 1.x, and their code is not part of this model. Before 0.6, `req.login` keeps
the session token, which is why a login binds the token it arrived on. Passport 0.6 and later
regenerate the session on login and give it a new token. Two branches of `POST /auth` also
come from these libraries:
- passport-local rejects a request whose email or password is empty before the verify
  callback runs. The callback at server.js:72 then gets no user, and `req.login` fails
  to serialize it. The callback ignores that error, so line 77 still replies
  `Logged in\n`, and the store is unchanged.
- Passport refuses to store an empty serialized id. So a matching user whose id is `""`
  also gets `Logged in\n` with no binding. For the same reason, a stored empty id
  counts as anonymous.

## Model

| member | source | states |
|---|---|---|
| Accounts.Verify | server.js:14-24 | returns no user exactly when no entry has both that email and that password; otherwise it returns the first such entry in list order |
| Accounts.VerifyScan | server.js:16-23 | the early-returning loop of the strategy callback computes the same result as the first-match definition |
| Accounts.VerifySound | server.js:17-21 | a returned user is a member of the list whose email and password equal the submitted ones |
| Accounts.VerifyFailuresAgree | server.js:16-23 | a wrong password for a known email and an unknown email both yield no user, so the two failures cannot be told apart |
| Accounts.MockVerify | server.js:10-24 | the configured account is accepted with `user@example.com`/`password` and with no other credentials |
| Identity.Serialize | server.js:26-28 | the session receives the user's id only; its contract is stated by Identity.SerializeKeepsOnlyId, Identity.SerializeResolves and Identity.SerializeRoundTrip |
| Identity.Deserialize | server.js:30-38 | yields no user exactly when no entry carries the id; otherwise it yields the last entry carrying it |
| Identity.DeserializeScan | server.js:31-37 | the overwrite-on-match loop computes the last-match definition |
| Identity.SerializeKeepsOnlyId | server.js:26-28 | two users serialize alike exactly when their ids agree; email and password play no part in what the session stores |
| Identity.SerializeResolves | server.js:26-38 | the serialized id of any listed user resolves back to some user with the same id, even when ids repeat |
| Identity.SerializeRoundTrip | server.js:26-38 | when ids are unique, deserializing a listed user's serialized id gives back that same user |
| Identity.DuplicateIdsBreakRoundTrip | server.js:17-35 | with two entries sharing an id, login picks the first entry but the session resolves to the second |
| Gate.Resolve | server.js:30-38 | a session is authenticated exactly when its token is bound to a non-empty id some listed user carries, and the restored user is the last listed entry with that id |
| Gate.CheckAuth | server.js:62-68 | `GET /auth` reports `Authenticated as <id>` of the bound id exactly for bound sessions, and `Use POST to log-in` otherwise |
| Gate.CheckAuthReportsState | server.js:62-68 | reading the `GET /auth` body back gives the bound subject when the session is bound and nothing otherwise, so the two replies never collide |
| Gate.GetAuth | server.js:62-68 | `GET /auth` always replies and leaves the session store unchanged; reading the reply back gives the bound id for a bound session, and an unbound session gets exactly `Use POST to log-in` |
| Gate.PostAuth | server.js:70-80 | `POST /auth` replies `Logged in` exactly when a field is empty or the credentials match some entry; it changes the store only for non-empty fields whose first match has a non-empty id, binding the token to that id; otherwise the store is untouched |
| Gate.FailedLoginChangesNothing | server.js:70-80 | failed credentials leave the store and every session's state unchanged |
| Gate.LoginTouchesOnlyItsToken | server.js:72-78 | a login changes no binding except the submitting token's |
| Gate.LoginThenCheckAuth | server.js:62-80 | after a login with non-empty fields whose first match has a non-empty id, `GET /auth` on that token reports that user's id |
| Gate.UnserializableLoginBindsNothing | server.js:70-80 | a login with an empty field, or whose first match has an empty id, replies `Logged in` and leaves the store unchanged |
| Gate.Step | server.js:62-80 | serving one request changes only the requesting token's binding and never removes it; any change comes from a binding login and names a listed user with a non-empty id |
| Gate.Run | server.js:62-80 | serving a sequence of requests yields one reply per request |
| Gate.RunBindsLastLogin | server.js:70-80 | after any request sequence, a token is bound to the id from the last binding login on it, or keeps its initial binding if no login on it bound anything |
| Gate.RunAuthenticatesOnlyByLogin | server.js:70-80 | a session that starts anonymous (no binding, an empty id, or an id no listed user carries) is authenticated after a run only if some login on that token had non-empty, valid credentials whose user has a non-empty id |
| Gate.RunPreservesResolvable | server.js:26-38 | if every binding resolves to a user before a run, every binding still resolves after it |
| Gate.RunReplyAt | server.js:62-80 | in any request sequence, the reply to each request is what that request gets on the store the earlier requests left behind |
| Gate.RunReplies | server.js:62-80 | every `GET /auth` is answered and reports the session as the earlier requests left it; a `POST /auth` is answered exactly when a field is empty or its credentials are valid, and the answer is `Logged in\n` |
| Gate.MockLoginThenCheck | server.js:10-80 | logging in as the configured account on a fresh session binds it to `asdfg1`, and `GET /auth` then reports `Authenticated as asdfg1` |
| Gate.MockEmptyPasswordThenCheck | server.js:70-80 | the configured email with an empty password is answered `Logged in`, yet `GET /auth` still replies `Use POST to log-in` |

## Left out

- Express setup, body parsing, the `/` route and `app.listen` (server.js:40-44, 56-60, 82-84): HTTP plumbing with no logic. Request fields are modelled as strings. A missing field behaves like an empty one and is written as `""`. Non-string JSON values are not modelled.
- Session file storage, cookie signing, and the `resave`/`saveUninitialized` flags (server.js:45-52): library I/O. The store is only the abstract token-to-id map.
- UUID session-id generation (server.js:47): randomness. Tokens are parameters. A fresh token is one that is absent from the map.
- Passport internals (`passport.initialize`, `passport.session`, `req.isAuthenticated`, `req.login`; server.js:53-54, 63, 74): foreign library code. Only their effect on the map is modelled: `req.login` binds the token to the serialized id, and a request is authenticated when the stored id deserializes. Passport may also drop a binding whose id no longer resolves. That library behaviour is not modelled, so `GET /auth` never changes the store.
- Error arguments of the Passport callbacks: server.js never passes an error itself (`done(null, …)`). The serialization error of the two unbinding branches reaches the login callback, which ignores it (server.js:74). The model records only the resulting reply and store, not the error value.
- `console.log` calls (server.js:19, 58, 75-76, 83): side effects only.
- Gate.Run: its own contract states only that there is one reply per request. Gate.RunReplyAt and Gate.RunReplies state what each reply is. Gate.RunBindsLastLogin states what the final store is.
- Concurrency: requests are served one at a time, each seeing the store the previous one left. express-session loads a session when a request starts and saves it when the request ends, so two overlapping requests on one session can interleave. That is not modelled.
- Session regeneration on login (Passport 0.6 and later): not modelled. The model assumes `req.login` keeps the token, as in earlier Passport versions.

=== FILE: accounts.dfy ===
/** The in-memory user list of server.js and the `LocalStrategy` verify
    callback that checks an email/password pair against it. */
module Accounts {
  import opened Options

  /** A user record: the id is what the session stores, the email is the
      login name, the password is compared as plain text (no hashing). */
  datatype User = User(id: string, email: string, password: string)

  /** The single mock account the server is configured with. */
  const MockUsers: seq<User> := [User("asdfg1", "user@example.com", "password")]

  /** The strategy's test: both fields equal, by string equality. */
  predicate Matches(u: User, username: string, password: string)
  {
    username == u.email && password == u.password
  }

  /** Some entry of `users` carries exactly these credentials. */
  ghost predicate Known(users: seq<User>, username: string, password: string)
  {
    exists i :: 0 <= i < |users| && Matches(users[i], username, password)
  }

  /** Index `i` holds the first entry, in list order, that carries the credentials. */
  ghost predicate FirstMatchAt(users: seq<User>, i: int, username: string, password: string)
  {
    && 0 <= i < |users|
    && Matches(users[i], username, password)
    && forall j :: 0 <= j < i ==> !Matches(users[j], username, password)
  }

  /** The verify callback: the first matching user, or `None` when the loop
      falls through without ever calling `done`. */
  function Verify(users: seq<User>, username: string, password: string): (r: Option<User>)
    ensures r.None? <==> !Known(users, username, password)
    ensures r.Some? ==> exists i :: FirstMatchAt(users, i, username, password) && users[i] == r.value
  {
    if |users| == 0 then None
    else if Matches(users[0], username, password) then
      assert FirstMatchAt(users, 0, username, password);
      Some(users[0])
    else
      var r := Verify(users[1..], username, password);
      if r.Some? then
        assert exists i :: FirstMatchAt(users, i, username, password) && users[i] == r.value by {
          var k :| FirstMatchAt(users[1..], k, username, password) && users[1..][k] == r.value;
          assert FirstMatchAt(users, k + 1, username, password);
        }
        r
      else
        assert forall i :: 1 <= i < |users| ==> users[i] == users[1..][i - 1];
        r
  }

  /** The strategy callback as written: a forward scan that returns at the
      first match and otherwise never produces a user. */
  method VerifyScan(users: seq<User>, username: string, password: string) returns (r: Option<User>)
    ensures r == Verify(users, username, password)
  {
    var i := 0;
    while i < |users|
      invariant 0 <= i <= |users|
      invariant Verify(users, username, password) == Verify(users[i..], username, password)
    {
      if username == users[i].email && password == users[i].password {
        return Some(users[i]);
      }
      assert users[i..][1..] == users[i + 1..];
      i := i + 1;
    }
    return None;
  }

  /** A user returned by Verify is a member of the list carrying the
      submitted credentials, so it is never a fabricated record. */
  lemma VerifySound(users: seq<User>, username: string, password: string)
    ensures Verify(users, username, password).Some? ==>
              var u := Verify(users, username, password).value;
              u in users && u.email == username && u.password == password
  {
    var r := Verify(users, username, password);
    if r.Some? {
      var i :| FirstMatchAt(users, i, username, password) && users[i] == r.value;
    }
  }

  /** A wrong password and an unknown email are indistinguishable to the
      caller: both yield no user. */
  lemma VerifyFailuresAgree(users: seq<User>, email: string, wrong: string, unknown: string, any: string)
    requires forall i :: 0 <= i < |users| && users[i].email == email ==> users[i].password != wrong
    requires forall i :: 0 <= i < |users| ==> users[i].email != unknown
    ensures Verify(users, email, wrong) == Verify(users, unknown, any) == None
  {
  }

  /** The configured account logs in with its own credentials and with nothing else. */
  lemma MockVerify(username: string, password: string)
    ensures Verify(MockUsers, username, password) ==
              if username == "user@example.com" && password == "password" then Some(MockUsers[0]) else None
  {
    assert Matches(MockUsers[0], username, password) <==> username == "user@example.com" && password == "password";
  }
}

=== FILE: gate.dfy ===
/** The `/auth` routes of server.js over an abstract session store. The store
    maps a session token to the subject id the serializer produced; a token
    with no entry is an anonymous session. A session is authenticated exactly
    when its token maps to a non-empty id that the deserializer resolves to a
    user (Passport skips deserialization for an empty stored id). */
module Gate {
  import opened Options
  import opened Accounts
  import opened Identity

  /** The opaque session id carried by the cookie. */
  type Token = string

  /** The session store, reduced to the binding Passport keeps in it. */
  type SessionStore = map<Token, SubjectId>

  const AuthenticatedPrefix: string := "Authenticated as "
  const LoginHint: string := "Use POST to log-in"
  const LoggedIn: string := "Logged in\n"

  /** The two states of a session; an authenticated one carries `req.user`. */
  datatype AuthState = Anonymous | Authenticated(user: User)

  /** What the server sends back: a body, or nothing at all when the request
      is left hanging. */
  datatype Reply = Sent(body: string) | NoReply

  /** A store together with the reply that produced it. */
  datatype Outcome = Outcome(store: SessionStore, reply: Reply)

  /** Token `t` is bound to a non-empty id that some listed user carries. */
  ghost predicate Bound(users: seq<User>, store: SessionStore, t: Token)
  {
    t in store && store[t] != "" && exists i :: 0 <= i < |users| && users[i].id == store[t]
  }

  /** The state Passport restores for a request: the deserialized user of the
      stored id, or anonymous. */
  function Resolve(users: seq<User>, store: SessionStore, t: Token): (s: AuthState)
    ensures s.Authenticated? <==> Bound(users, store, t)
    ensures s.Authenticated? ==> exists i :: LastWithIdAt(users, i, store[t]) && users[i] == s.user
  {
    if t !in store || store[t] == "" then Anonymous
    else match Deserialize(users, store[t])
      case Some(u) => Authenticated(u)
      case None => Anonymous
  }

  /** `GET /auth`: reports the authenticated user's id, or the login hint. */
  function CheckAuth(users: seq<User>, store: SessionStore, t: Token): (body: string)
    ensures Bound(users, store, t) ==> body == AuthenticatedPrefix + store[t]
    ensures !Bound(users, store, t) ==> body == LoginHint
  {
    match Resolve(users, store, t)
    case Authenticated(u) =>
      assert exists i :: LastWithIdAt(users, i, store[t]) && users[i] == u;
      AuthenticatedPrefix + u.id
    case Anonymous => LoginHint
  }

  /** Reads a `GET /auth` body back as the subject it reports, if any. */
  function ReportedSubject(body: string): (r: Option<SubjectId>)
  {
    if |body| >= |AuthenticatedPrefix| && body[..|AuthenticatedPrefix|] == AuthenticatedPrefix
    then Some(body[|AuthenticatedPrefix|..])
    else None
  }

  /** The `GET /auth` body tells the two states apart and names the subject:
      reading it back gives the bound id exactly when the session is bound. */
  lemma CheckAuthReportsState(users: seq<User>, store: SessionStore, t: Token)
    ensures ReportedSubject(CheckAuth(users, store, t)) ==
              if Bound(users, store, t) then Some(store[t]) else None
  {
    var body := CheckAuth(users, store, t);
    if Bound(users, store, t) {
      assert body[..|AuthenticatedPrefix|] == AuthenticatedPrefix;
      assert body[|AuthenticatedPrefix|..] == store[t];
    } else {
      assert body[..|AuthenticatedPrefix|][0] == 'U';
    }
  }

  /** `GET /auth` only reads the session: the store is left as it was. */
  function GetAuth(users: seq<User>, store: SessionStore, t: Token): (o: Outcome)
    ensures o.store == store
    ensures o.reply.Sent?
    ensures ReportedSubject(o.reply.body) == if Bound(users, store, t) then Some(store[t]) else None
    ensures !Bound(users, store, t) ==> o.reply == Sent(LoginHint)
  {
    CheckAuthReportsState(users, store, t);
    Outcome(store, Sent(CheckAuth(users, store, t)))
  }

  /** A login that ends with a binding: both fields are non-empty (the local
      strategy rejects an empty one before the verify callback runs), the
      credentials match, and the first matching user's id is non-empty
      (Passport refuses to store an empty serialized id). */
  ghost predicate LoginBinds(users: seq<User>, username: string, password: string)
  {
    && username != ""
    && password != ""
    && exists i :: FirstMatchAt(users, i, username, password) && users[i].id != ""
  }

  /** `POST /auth`. With an empty field the strategy fails and the callback
      runs with no user; `req.login` then cannot serialize, but the callback
      ignores that error and still answers. With matching credentials
      `req.login` binds the token to the serialized user (unless its id is
      empty, which again fails to serialize) and the server answers.
      Otherwise the verify callback never calls back: no reply is sent and
      the store is untouched. */
  function PostAuth(users: seq<User>, store: SessionStore, t: Token, username: string, password: string): (o: Outcome)
    ensures o.reply.Sent? <==> username == "" || password == "" || Known(users, username, password)
    ensures o.reply.Sent? ==> o.reply.body == LoggedIn
    ensures !LoginBinds(users, username, password) ==> o.store == store
    ensures LoginBinds(users, username, password) ==>
              exists i :: FirstMatchAt(users, i, username, password) && o.store == store[t := users[i].id]
  {
    if username == "" || password == "" then Outcome(store, Sent(LoggedIn))
    else match Verify(users, username, password)
      case Some(u) =>
        if Serialize(u) == "" then Outcome(store, Sent(LoggedIn))
        else Outcome(store[t := Serialize(u)], Sent(LoggedIn))
      case None => Outcome(store, NoReply)
  }

  /** Failed credentials never authenticate anybody: the store, and hence
      every session's state, is unchanged. */
  lemma FailedLoginChangesNothing(users: seq<User>, store: SessionStore, t: Token, username: string, password: string)
    requires !Known(users, username, password)
    ensures PostAuth(users, store, t, username, password).store == store
    ensures forall t' :: Resolve(users, PostAuth(users, store, t, username, password).store, t') == Resolve(users, store, t')
  {
  }

  /** A login with an empty field, or whose matching user has an empty id, is
      answered but binds nothing: every session keeps its state. */
  lemma UnserializableLoginBindsNothing(users: seq<User>, store: SessionStore, t: Token, username: string, password: string)
    requires username == "" || password == "" || (Known(users, username, password) && Verify(users, username, password).value.id == "")
    ensures PostAuth(users, store, t, username, password) == Outcome(store, Sent(LoggedIn))
  {
  }

  /** A login binds only the submitting token: every other token's binding,
      and so its state, is as before. */
  lemma LoginTouchesOnlyItsToken(users: seq<User>, store: SessionStore, t: Token, username: string, password: string)
    ensures var s' := PostAuth(users, store, t, username, password).store;
            && s'.Keys - {t} == store.Keys - {t}
            && forall t' :: t' in store && t' != t ==> s'[t'] == store[t']
  {
  }

  /** After a binding login on `t`, a later `GET /auth` on `t` reports the id
      of the first user whose credentials matched. */
  lemma LoginThenCheckAuth(users: seq<User>, store: SessionStore, t: Token, username: string, password: string)
    requires username != "" && password != ""
    requires Known(users, username, password)
    requires Verify(users, username, password).value.id != ""
    ensures var s' := PostAuth(users, store, t, username, password).store;
            && Bound(users, s', t)
            && CheckAuth(users, s', t) == AuthenticatedPrefix + Verify(users, username, password).value.id
  {
    var s' := PostAuth(users, store, t, username, password).store;
    var u := Verify(users, username, password).value;
    var i :| FirstMatchAt(users, i, username, password) && users[i] == u;
    assert s'[t] == users[i].id;
  }

  /** A request to one of the two `/auth` routes, with the session token it carries. */
  datatype Request =
    | GetAuthRequest(token: Token)
    | PostAuthRequest(token: Token, username: string, password: string)

  /** Serves one request. Only the requesting token's binding may change; it
      is never removed, and it changes only through a binding login, to the id
      of a listed user. */
  function Step(users: seq<User>, store: SessionStore, q: Request): (o: Outcome)
    ensures forall t' :: t' != q.token ==> (t' in o.store <==> t' in store)
    ensures forall t' :: t' != q.token && t' in store ==> o.store[t'] == store[t']
    ensures Lookup(o.store, q.token) != Lookup(store, q.token) ==>
              && q.token in o.store
              && q.PostAuthRequest?
              && LoginBinds(users, q.username, q.password)
              && o.store[q.token] != ""
              && exists i :: 0 <= i < |users| && users[i].id == o.store[q.token]
  {
    match q
    case GetAuthRequest(t) => GetAuth(users, store, t)
    case PostAuthRequest(t, username, password) => PostAuth(users, store, t, username, password)
  }

  /** A sequence of requests served in order: the final store and one reply per request. */
  datatype Trace = Trace(store: SessionStore, replies: seq<Reply>)

  function Run(users: seq<User>, store: SessionStore, qs: seq<Request>): (tr: Trace)
    ensures |tr.replies| == |qs|
  {
    if |qs| == 0 then Trace(store, [])
    else
      var prev := Run(users, store, qs[..|qs| - 1]);
      var o := Step(users, prev.store, qs[|qs| - 1]);
      Trace(o.store, prev.replies + [o.reply])
  }

  /** The id bound to `t` by the last binding login on `t` among `qs`, if any. */
  function LastLoginId(users: seq<User>, qs: seq<Request>, t: Token): (r: Option<SubjectId>)
  {
    if |qs| == 0 then None
    else
      var q := qs[|qs| - 1];
      if && q.PostAuthRequest? && q.token == t && q.username != "" && q.password != ""
         && Verify(users, q.username, q.password).Some?
         && Verify(users, q.username, q.password).value.id != ""
      then Some(Verify(users, q.username, q.password).value.id)
      else LastLoginId(users, qs[..|qs| - 1], t)
  }

  /** The binding of `t`, read as an option. */
  function Lookup(store: SessionStore, t: Token): (r: Option<SubjectId>)
  {
    if t in store then Some(store[t]) else None
  }

  /** After any sequence of requests, a token is bound to the id of the last
      binding login on it, or keeps the binding it started with when no login
      on it bound anything. */
  lemma {:induction false} RunBindsLastLogin(users: seq<User>, store: SessionStore, qs: seq<Request>, t: Token)
    ensures Lookup(Run(users, store, qs).store, t) ==
              if LastLoginId(users, qs, t).Some? then LastLoginId(users, qs, t) else Lookup(store, t)
  {
    if |qs| > 0 {
      var prev := Run(users, store, qs[..|qs| - 1]);
      RunBindsLastLogin(users, store, qs[..|qs| - 1], t);
      var q := qs[|qs| - 1];
      if q.PostAuthRequest? && q.token == t && q.username != "" && q.password != "" {
        var r := Verify(users, q.username, q.password);
        if r.Some? && r.value.id != "" {
          assert Run(users, store, qs).store == prev.store[t := Serialize(r.value)];
        }
      }
    }
  }

  /** A session that was anonymous at the start (no binding, an empty id, or
      an id no listed user carries) is authenticated after a run only if some
      login on that token bound it. */
  lemma {:induction false} RunAuthenticatesOnlyByLogin(users: seq<User>, store: SessionStore, qs: seq<Request>, t: Token)
    requires !Bound(users, store, t)
    requires Bound(users, Run(users, store, qs).store, t)
    ensures exists k :: 0 <= k < |qs| && qs[k].PostAuthRequest? && qs[k].token == t
                        && LoginBinds(users, qs[k].username, qs[k].password)
  {
    var prev := Run(users, store, qs[..|qs| - 1]);
    var q := qs[|qs| - 1];
    if q.PostAuthRequest? && q.token == t && LoginBinds(users, q.username, q.password) {
      assert qs[|qs| - 1] == q;
    } else {
      assert Run(users, store, qs).store == Step(users, prev.store, q).store;
      assert Bound(users, prev.store, t);
      RunAuthenticatesOnlyByLogin(users, store, qs[..|qs| - 1], t);
      var k :| 0 <= k < |qs| - 1 && qs[..|qs| - 1][k].PostAuthRequest? && qs[..|qs| - 1][k].token == t
                && LoginBinds(users, qs[..|qs| - 1][k].username, qs[..|qs| - 1][k].password);
      assert qs[k] == qs[..|qs| - 1][k];
    }
  }

  /** Every binding names a listed user, so every bound session resolves. */
  ghost predicate AllResolve(users: seq<User>, store: SessionStore)
  {
    forall t :: t in store ==> Bound(users, store, t)
  }

  /** Serving requests keeps every binding resolvable. */
  lemma {:induction false} RunPreservesResolvable(users: seq<User>, store: SessionStore, qs: seq<Request>)
    requires AllResolve(users, store)
    ensures AllResolve(users, Run(users, store, qs).store)
  {
    if |qs| > 0 {
      RunPreservesResolvable(users, store, qs[..|qs| - 1]);
    }
  }

  /** The reply to the `k`-th request is the one it gets when served alone on
      the store the requests before it left behind. */
  lemma {:induction false} RunReplyAt(users: seq<User>, store: SessionStore, qs: seq<Request>, k: int)
    requires 0 <= k < |qs|
    ensures Run(users, store, qs).replies[k] == Step(users, Run(users, store, qs[..k]).store, qs[k]).reply
  {
    var last := |qs| - 1;
    var prev := Run(users, store, qs[..last]);
    if k == last {
      assert Run(users, store, qs).replies[k] == Step(users, prev.store, qs[last]).reply by {
        assert Run(users, store, qs).replies == prev.replies + [Step(users, prev.store, qs[last]).reply];
      }
      assert qs[..last] == qs[..k];
    } else {
      assert Run(users, store, qs).replies[k] == prev.replies[k] by {
        assert Run(users, store, qs).replies == prev.replies + [Step(users, prev.store, qs[last]).reply];
      }
      RunReplyAt(users, store, qs[..last], k);
      assert qs[..last][..k] == qs[..k];
      assert qs[..last][k] == qs[k];
    }
  }

  /** Every `GET /auth` gets an answer reporting the session as it stands after
      the requests before it; a `POST /auth` gets one exactly when a field is
      empty or its credentials match a listed user, and that answer is
      `Logged in\n`. */
  lemma RunReplies(users: seq<User>, store: SessionStore, qs: seq<Request>)
    ensures forall k :: 0 <= k < |qs| ==>
              (Run(users, store, qs).replies[k].Sent? <==>
                 || qs[k].GetAuthRequest?
                 || qs[k].username == ""
                 || qs[k].password == ""
                 || Known(users, qs[k].username, qs[k].password))
    ensures forall k :: 0 <= k < |qs| && qs[k].GetAuthRequest? ==>
              Run(users, store, qs).replies[k] == Sent(CheckAuth(users, Run(users, store, qs[..k]).store, qs[k].token))
    ensures forall k :: 0 <= k < |qs| && qs[k].PostAuthRequest? && Run(users, store, qs).replies[k].Sent? ==>
              Run(users, store, qs).replies[k].body == LoggedIn
  {
    forall k | 0 <= k < |qs|
      ensures Run(users, store, qs).replies[k] == Step(users, Run(users, store, qs[..k]).store, qs[k]).reply
    {
      RunReplyAt(users, store, qs, k);
    }
  }

  /** With the configured account: logging in on a fresh session and then
      asking `GET /auth` reports the account's id. */
  lemma MockLoginThenCheck(t: Token)
    ensures var o := PostAuth(MockUsers, map[], t, "user@example.com", "password");
            && o == Outcome(map[t := "asdfg1"], Sent(LoggedIn))
            && CheckAuth(MockUsers, o.store, t) == "Authenticated as asdfg1"
  {
    MockVerify("user@example.com", "password");
  }

  /** With the configured account: an empty password is answered as if the
      login had worked, yet the session stays anonymous. */
  lemma MockEmptyPasswordThenCheck(t: Token)
    ensures var o := PostAuth(MockUsers, map[], t, "user@example.com", "");
            && o == Outcome(map[], Sent(LoggedIn))
            && CheckAuth(MockUsers, o.store, t) == LoginHint
  {
  }
}

=== FILE: identity.dfy ===
/** Session persistence of a user: `serializeUser` keeps only the id,
    `deserializeUser` maps an id back to a user by scanning the list. */
module Identity {
  import opened Options
  import opened Accounts

  /** What the session store holds for an authenticated session. */
  type SubjectId = string

  /** The serializer: the session keeps the user's id and nothing else. */
  function Serialize(u: User): (r: SubjectId)
  {
    u.id
  }

  /** Index `i` holds the last entry, in list order, whose id is `id`. */
  ghost predicate LastWithIdAt(users: seq<User>, i: int, id: SubjectId)
  {
    && 0 <= i < |users|
    && users[i].id == id
    && forall j :: i < j < |users| ==> users[j].id != id
  }

  /** No two entries of the list share an id. */
  ghost predicate UniqueIds(users: seq<User>)
  {
    forall i, j :: 0 <= i < j < |users| ==> users[i].id != users[j].id
  }

  /** The deserializer: the last user carrying `id`, or `None` (the `false`
      of server.js) when no entry carries it. */
  function Deserialize(users: seq<User>, id: SubjectId): (r: Option<User>)
    ensures r.None? <==> forall i :: 0 <= i < |users| ==> users[i].id != id
    ensures r.Some? ==> exists i :: LastWithIdAt(users, i, id) && users[i] == r.value
  {
    if |users| == 0 then None
    else if users[|users| - 1].id == id then
      assert LastWithIdAt(users, |users| - 1, id);
      Some(users[|users| - 1])
    else
      var init := users[..|users| - 1];
      var r := Deserialize(init, id);
      assert forall i :: 0 <= i < |init| ==> init[i] == users[i];
      assert r.Some? ==> exists i :: LastWithIdAt(users, i, id) && users[i] == r.value by {
        if r.Some? {
          var k :| LastWithIdAt(init, k, id) && init[k] == r.value;
          assert LastWithIdAt(users, k, id);
        }
      }
      r
  }

  /** The deserializer as written: a forward scan that overwrites its
      candidate at every id match, so the last match survives. */
  method DeserializeScan(users: seq<User>, id: SubjectId) returns (r: Option<User>)
    ensures r == Deserialize(users, id)
  {
    r := None;
    var i := 0;
    while i < |users|
      invariant 0 <= i <= |users|
      invariant r == Deserialize(users[..i], id)
    {
      assert users[..i + 1][..i] == users[..i];
      if id == users[i].id {
        r := Some(users[i]);
      }
      i := i + 1;
    }
    assert users[..i] == users;
  }

  /** The serialized form depends on the id alone: two users serialize alike
      exactly when their ids agree, whatever their email or password. */
  lemma SerializeKeepsOnlyId(u: User, v: User)
    ensures Serialize(u) == Serialize(v) <==> u.id == v.id
    ensures Serialize(u) == Serialize(User(u.id, v.email, v.password))
  {
  }

  /** Any listed user's serialized id resolves back to a user with that id,
      whether or not ids are unique. */
  lemma {:induction false} SerializeResolves(users: seq<User>, u: User)
    requires u in users
    ensures Deserialize(users, Serialize(u)).Some?
    ensures Deserialize(users, Serialize(u)).value.id == u.id
  {
    var k :| 0 <= k < |users| && users[k] == u;
  }

  /** With unique ids the session round trip returns the very same record. */
  lemma {:induction false} SerializeRoundTrip(users: seq<User>, u: User)
    requires UniqueIds(users)
    requires u in users
    ensures Deserialize(users, Serialize(u)) == Some(u)
  {
    var k :| 0 <= k < |users| && users[k] == u;
    var r := Deserialize(users, u.id);
    var i :| LastWithIdAt(users, i, u.id) && users[i] == r.value;
    assert i == k;
  }

  /** Without unique ids the round trip can fail: the verifier picks the
      first entry with matching credentials while the deserializer picks the
      last entry with the same id. */
  lemma DuplicateIdsBreakRoundTrip()
    ensures var a := User("x", "a@example.com", "pa");
            var b := User("x", "b@example.com", "pb");
            && Verify([a, b], "a@example.com", "pa") == Some(a)
            && Deserialize([a, b], Serialize(a)) == Some(b)
  {
    var a := User("x", "a@example.com", "pa");
    var b := User("x", "b@example.com", "pb");
    assert Matches([a, b][0], "a@example.com", "pa");
    assert [a, b][..1] == [a];
  }
}

=== FILE: options.dfy ===
/** The optional value used throughout the model: "no user" in server.js
    (a callback that is never invoked, or the literal `false`) is `None`. */
module Options {

  datatype Option<+T> = None | Some(value: T)
}
